=== FILE: README.md ===
# Tree record modal: status and maintenance logic

A Dafny model of the decision logic behind the tree-record modal of the tree
watering client (`client/src/pages/treedata/TreeData.js`). The modal shows one tree,
lets a volunteer move the overall-health slider, edit the tree's notes and record a
maintenance visit, and lists past visits. The model covers the pure logic:

- `Health` — the 1..6 health scale and its labels (`convertSliderValuesToHealth`), the
  slider's option list as the inverse, and when a slider move writes `{idTree, health}`.
- `Summary` — `makeMaintenanceString`, the "Maintenance Done" line of a visit in the history.
- `Toggles` — the maintenance buttons: `isEmpty`, `changeYesNo`, `changeImageText`, the
  `statusSelected` / label update of `onCheckboxBtnClick`, and the buttons remounting
  with base-verb labels when the panel is closed and opened again.
- `Visit` — `hasMaintenanceFields` and the payload and send decision of the visit `handleSubmit`.
- `Notes` — the notes editor's save button as an event-driven state machine
  (`handleOnChange`, `handleNotesSubmit`, `handleNotesSave`), with the 800 ms save
  timer as an explicit `Timeout` event and the refetch of the record after a
  successful write as a `Refetched` event that replaces the saved notes.
- `Flags`, `Seqs`, `Wrappers` — the six maintenance flags, `filter`/`join(', ')` with a
  split that undoes the join, and `Option` for JavaScript's `undefined`.

A visit record is modelled as the sequence of its `Object.entries`, with values
`Null | Str(s) | Other`, so the entry order and the rule "only `"no"` and `null` are
negative" are both explicit. `statusSelected` and the visit payload are
`map<string, string>`; `date_visit` is an opaque string.

Behaviours of the code worth noting:

- The maintenance summary lists flags in the record's own entry order, not in a fixed
  watered/mulched/weeded/staked/braced/pruned order, and a flag whose value is `false`
  or `undefined` is listed (only `"no"` and `null` are filtered out).
- A visit is sent when any flag KEY or `comment` is present in the payload, whatever the
  value: a flag clicked on and off again stores `"no"`, and the visit is still sent
  carrying only that `watered: "no"` flag and no comment (`Visit.UnclickedFlagStillSends`).
- A failed notes save shows the error message only until the save timer resets the
  button (`Notes.TimeoutResets`).

## Model

| member | source | states |
|---|---|---|
| Health.ConvertSliderValuesToHealth | client/src/pages/treedata/TreeData.js:20-29 | a label exactly for 1..6, and that label's slider position is the input; every other integer gives `undefined` |
| Health.SliderRoundTrip | client/src/pages/treedata/TreeData.js:182-189 | each label's position in the slider's option list maps back to that label |
| Health.LabelsDistinct | client/src/pages/treedata/TreeData.js:20-29 | the six positions give six distinct labels with six distinct names |
| Health.ChangeSlider | client/src/pages/treedata/TreeData.js:143-162 | as written: signed out, the unbound `loginWithRedirect` throws and nothing is written; signed in, a write happens iff the new label differs from `health`, carrying the tree id and the new label |
| Health.SignedOutMoveThrows | client/src/pages/treedata/TreeData.js:131-146 | a signed-out slider move ends in the caught ReferenceError with no redirect, where the corrected handler requests the login |
| Health.ChangeSliderIntended | client/src/pages/treedata/TreeData.js:146-153 | corrected: login is requested iff signed out, and a write `{idTree, health: label}` happens iff the derived label differs from `health` |
| Health.SliderWritesIffPositionMoves | client/src/pages/treedata/TreeData.js:147-153 | for a tree with a known label, a move writes iff the position differs from that label's position, and the written label is the new position's |
| Health.StumpToFairWritesFair | client/src/pages/treedata/TreeData.js:147-153 | a "stump" tree moved to 5 writes `{idTree, health: "fair"}`, the new label and not the old one |
| Flags.FromName | client/src/pages/treedata/TreeData.js:466-473 | a key names a flag exactly when the summary's key test accepts it, and names only that flag |
| Flags.FlagNamesAreTheFlagKeys | client/src/pages/treedata/TreeData.js:663 | every button name is a flag key, distinct from its off-label, non-empty and comma-free |
| Flags.FlagNamesInjective | client/src/pages/treedata/TreeData.js:698-703 | distinct flags have distinct on-labels and distinct off-labels |
| Seqs.SplitJoin | client/src/pages/treedata/TreeData.js:477 | joining non-empty comma-free names with ", " can be split back into the same list |
| Seqs.Filter | client/src/pages/treedata/TreeData.js:465-466 | every element kept satisfies the predicate, and no more elements come out than went in |
| Seqs.Join | client/src/pages/treedata/TreeData.js:477 | the empty list joins to "", and a list whose first name is non-empty joins to a non-empty string |
| Summary.MakeMaintenanceString | client/src/pages/treedata/TreeData.js:463-478 | the summary is the listed names joined with ", ", it is "" exactly when no entry is listed, and split at ", " it is exactly the keys of the flag entries whose values are neither "no" nor `null`, in record order |
| Summary.EntryKeys | client/src/pages/treedata/TreeData.js:474 | the keys of the entries, one per entry, in entry order |
| Summary.DoneNames | client/src/pages/treedata/TreeData.js:464-474 | what survives the two filters and the key map is no longer than the record, and every name is one of the six flag keys |
| Summary.DoneNamesAreListedNames | client/src/pages/treedata/TreeData.js:464-474 | the two filters and the key map list the same names in the same order as a one-entry-at-a-time reference |
| Summary.ListedNamesMembership | client/src/pages/treedata/TreeData.js:465-473 | a name is listed iff some entry has that flag key and a value other than "no" and `null` |
| Summary.NonFlagKeysNeverListed | client/src/pages/treedata/TreeData.js:466-473 | keys such as comment, volunteer and idTree never appear in the summary |
| Summary.SummaryKeepsRecordOrder | client/src/pages/treedata/TreeData.js:464-474 | the summary of two record parts lists the first part's names before the second's |
| Summary.SummaryOfListedEntries | client/src/pages/treedata/TreeData.js:463-478 | summarising only the entries the summary lists gives the same string |
| Toggles.IsEmpty | client/src/pages/treedata/TreeData.js:689-694 | true iff the object has no own key |
| Toggles.ChangeYesNo | client/src/pages/treedata/TreeData.js:709-713 | "yes" iff the key is absent or maps to "no", "no" otherwise |
| Toggles.ActiveIffClickTurnsOff | client/src/pages/treedata/TreeData.js:674 | an active button is one a click turns to "no"; a key never clicked is inactive; for a "yes"/"no" value, active iff the next click stores "no" |
| Toggles.ChangeImageText | client/src/pages/treedata/TreeData.js:696-707 | a label iff the key is a flag; the on-label exactly when `changeYesNo` gives "yes" for the same key and state, the base verb otherwise |
| Toggles.OnCheckboxBtnClick | client/src/pages/treedata/TreeData.js:644-661 | the clicked key is set to `changeYesNo`, the clicked flag's label to `changeImageText`, and every other key and label is unchanged |
| Toggles.SetLabel | client/src/pages/treedata/TreeData.js:652-657 | the label of the flag named by the clicked button takes the new text, every other label is kept, and a non-flag name changes nothing |
| Toggles.Mount | client/src/pages/treedata/TreeData.js:637-642 | the buttons mount over the current selection with every label at its base verb |
| Toggles.Reopen | client/src/pages/treedata/TreeData.js:547-550 | closing and reopening the panel keeps `statusSelected` (line 490) and resets every label to its base verb, as the buttons remount under line 575 |
| Toggles.MountInStepIffNotOn | client/src/pages/treedata/TreeData.js:637-642 | right after mounting, a flag's label matches its active state (line 674) iff the flag is not "yes"; with nothing on, all six match |
| Toggles.ClickKeepsLabelsInStep | client/src/pages/treedata/TreeData.js:651-660 | any click puts the clicked flag's label in step with its new value and leaves every other flag as in or out of step as it was; flag clicks keep the selection flag-only and "yes"/"no" |
| Toggles.ClickTwiceRestores | client/src/pages/treedata/TreeData.js:659-660 | two clicks on one key give a "yes"/"no" value back, leave an unset key at "no", leave other labels alone and end with the clicked label in step; from a consistent state with the key set they restore it exactly |
| Toggles.ClickTwiceRestoresConsistent | client/src/pages/treedata/TreeData.js:659-660 | when every flag label agrees with the selection and the key has been set, two clicks give back exactly the state that was there before |
| Toggles.ClickTwiceKeepsSelection | client/src/pages/treedata/TreeData.js:659-660 | two clicks on a key holding "yes" or "no" leave the whole selection as it was |
| Toggles.ClickTwiceKeepsLabels | client/src/pages/treedata/TreeData.js:651-657 | from a consistent state, two clicks on a set key leave every label as it was |
| Toggles.ClickTwiceFromUnset | client/src/pages/treedata/TreeData.js:709-713 | from an unset flag two clicks store "yes" then "no" |
| Toggles.ReopenDrifts | client/src/pages/treedata/TreeData.js:637-674 | as written: click watered, close and reopen: the active watered button reads "water", the state is not in step, and two clicks end at "watered" |
| Toggles.ButtonLabels | client/src/pages/treedata/TreeData.js:662-681 | corrected: labels derived from the selection; each is its flag's on-label iff the button is active, otherwise its base verb |
| Toggles.DerivedLabelsFollowClicks | client/src/pages/treedata/TreeData.js:651-660 | the derived labels agree with what a click shows on the clicked button, and reopening does not change them |
| Visit.HasMaintenanceFields | client/src/pages/treedata/TreeData.js:480-485 | true iff a flag key or `comment` is present as a key, whatever its value |
| Visit.SomeKeyPresent | client/src/pages/treedata/TreeData.js:482 | true iff some key of the list is an own key of the object |
| Visit.VisitPayload | client/src/pages/treedata/TreeData.js:517-525 | the payload has idTree, date_visit, the selected keys, comment and volunteer iff non-empty; selected values spread over the first two |
| Visit.HandleSubmit | client/src/pages/treedata/TreeData.js:517-529 | the payload is sent iff the comment is non-empty or the selection has a maintenance key, and always carries idTree and date_visit |
| Visit.VolunteerAloneNeverSends | client/src/pages/treedata/TreeData.js:523-529 | with nothing selected and no comment, no volunteer name causes a send |
| Visit.SendsIffClickedOrCommented | client/src/pages/treedata/TreeData.js:518-529 | for any selection with only flag keys, the visit is sent iff some flag was clicked or a comment was typed |
| Visit.UnclickedFlagStillSends | client/src/pages/treedata/TreeData.js:480-485 | a flag clicked on and off stores "no" and the visit is still sent, carrying that "no" |
| Visit.WateredOnlySends | client/src/pages/treedata/TreeData.js:517-529 | watered on, no comment, no volunteer sends exactly `{idTree, date_visit, watered: "yes"}` |
| Notes.Mounted | client/src/pages/treedata/TreeData.js:213-215 | the editor mounts with the record's notes as the baseline and the save button hidden, showing "SAVE" in the light style |
| Notes.Step | client/src/pages/treedata/TreeData.js:217-247 | a change reveals the save button iff the text differs from the saved notes and touches nothing else; a non-empty submit shows "SAVING" in the info style and writes that text, an empty one does nothing; success changes nothing; a failure shows the message in the danger style; the timer restores the hidden "SAVE" button; a refetch replaces the saved notes |
| Notes.Run | client/src/pages/treedata/TreeData.js:217-247 | a run with no events changes nothing; over any run there is at most one write per event, each for this tree and with a non-empty text |
| Notes.WritesAreNonEmptySubmits | client/src/pages/treedata/TreeData.js:228-241 | over any run, the writes are exactly the non-empty submits' texts, in order, with the tree id |
| Notes.RunKeepsFeedback | client/src/pages/treedata/TreeData.js:213-247 | the button only ever shows "SAVE" plain, "SAVING" in the info style, or a failure in the danger style |
| Notes.TimeoutResets | client/src/pages/treedata/TreeData.js:222-241 | any run ending with the save timer is back to the hidden "SAVE" button |
| Notes.SameTextKeepsSaveHidden | client/src/pages/treedata/TreeData.js:217-220 | typing the saved notes again never reveals the save button |
| Notes.FailedSaveThenTimeout | client/src/pages/treedata/TreeData.js:232-241 | a failed save shows its message in the danger style after one write, and the timer clears it |
| Notes.SavedTextBecomesBaseline | client/src/pages/treedata/TreeData.js:208-219 | after a successful save whose refetch returns the text, the timer and typing that text again leave the save button hidden |

## Findings

| source | as written | input that shows it | evidently intended | confidence | as-written member | corrected member |
|---|---|---|---|---|---|---|
| client/src/pages/treedata/TreeData.js:146 | `changeSlider` calls `loginWithRedirect`, which the slider component never takes from the auth hook (only `isAuthenticated`, line 131), so it throws a ReferenceError that the handler's catch swallows | a signed-out user moves the slider to 5 on a "stump" tree: no redirect, no write | request the login redirect and carry on, as the maintenance panel's arrow handler does (lines 547-550) | high; not executed | Health.ChangeSlider (shown by Health.SignedOutMoveThrows) | Health.ChangeSliderIntended (with Health.SliderWritesIffPositionMoves) |
| client/src/pages/treedata/TreeData.js:637-642 | the button labels are state of the buttons component, which mounts only while the panel is open (line 575), while `statusSelected` belongs to the panel (line 490); reopening resets the labels but keeps the selection | open the panel, click watered, close and reopen it: the watered button is active (line 674) but reads "water"; two clicks then end at "watered" | each label derived from the selection, so an active button always shows its on-label | medium; not executed | Toggles.ReopenDrifts (on Toggles.Reopen) | Toggles.ButtonLabels (with Toggles.DerivedLabelsFollowClicks) |

## Left out

- Health.ChangeSlider: the record's `health` is `None` both when it is JSON `null` and when the field is missing; the source compares `newHealth !== health`, so for a value outside 1..6 (which the range input at lines 173-175 never produces) it would write `undefined` over a `null` health, while the model reports no change.
- The slider value is taken as an already parsed integer; `parseInt` of the input's string is not modelled (the input only produces "1" to "6").
- Rendering, the modal, CSS class names and image paths are presentation; the notes button style is kept as a three-valued datatype.
- Reading and writing through `useQuery`/`useMutation`, `getData`/`putData`/`postData` and cache invalidation are remote I/O in code outside this file; a write is modelled as the payload it sends, and its settling as the `WriteSucceeded`/`WriteFailed` events.
- The authentication service is outside the model apart from the `isAuthenticated` flag of the slider handler.
- The visit time is an opaque `dateVisit` parameter; `new Date()` and date formatting are the clock.
- The 800 ms save timer is the `Timeout` event; events may arrive in any order, so overlapping submits and timers are not excluded.
- The slider's "SAVING" alert and the maintenance form's button texts and styles (`handleButtonChanges`, `handleMaintenanceSave`) are presentation feedback of the same shape as the notes button, which is the one modelled.
- The notes form's submit is modelled as an event that can arrive whether or not the save button is shown; in the page it is only reachable through that button.
- The comment and volunteer inputs are modelled as their text, "" when the form is not open. Before the form is first opened `commentRef.current` is the empty string and `volunteerRef.current` is the user's name or "Volunteer" (line 492), a string with no `.value`, so both guards at lines 520 and 523 fail; after it is closed the refs are cleared.
- MakeMaintenanceString: a history element that is `null` or `undefined` makes `Object.entries` (line 464) throw while rendering the list (line 335 passes the raw element; line 334 guards only the destructuring); the model takes every element as a record, a sequence of entries.
- ChangeImageText: for a key such as "constructor" the source's `yes`/`no` lookups (lines 704-706) return an inherited `Object.prototype` member rather than `undefined`; the model returns `None` for every non-flag key. Only the six button names (lines 671, 678) reach the function.
- Notes.Step: the value a `Refetched` event brings is whatever the remote store returns; the model does not promise it is the text just written.
- The "Maintenance Done" preview over `statusSelected.length` (lines 607-617) reads a property objects do not have and never renders; `isEmptyArray` (line 715) is unused.
- `isEmpty` is modelled on `map<string, string>`; inherited enumerable properties of JavaScript objects do not arise here.
- Console logging and the `try`/`catch` around handlers, apart from the slider's caught ReferenceError.

=== FILE: flags.dfy ===
/**
 The six maintenance flags a tree visit can record. Each flag's key in a visit
 record is also the past participle shown on its button when it is on; the base
 verb is shown when it is off.
 */
module Flags {
  import opened Wrappers

  datatype Flag = Watered | Weeded | Mulched | Staked | Braced | Pruned {

    /** The record key, and the button label when the flag is on. */
    function Name(): string {
      match this
      case Watered => "watered"
      case Weeded => "weeded"
      case Mulched => "mulched"
      case Staked => "staked"
      case Braced => "braced"
      case Pruned => "pruned"
    }

    /** The button label when the flag is off. */
    function Verb(): string {
      match this
      case Watered => "water"
      case Weeded => "weed"
      case Mulched => "mulch"
      case Staked => "stake"
      case Braced => "brace"
      case Pruned => "prune"
    }
  }

  /** The buttons in display order. */
  const AllFlags: seq<Flag> := [Watered, Weeded, Mulched, Staked, Braced, Pruned]

  /** The key test the maintenance summary applies to a record entry. */
  predicate IsFlagName(key: string) {
    || key == "watered"
    || key == "mulched"
    || key == "weeded"
    || key == "staked"
    || key == "braced"
    || key == "pruned"
  }

  /** The flag a record key names, if any. */
  function FromName(key: string): (r: Option<Flag>)
    ensures r.Some? <==> IsFlagName(key)
    ensures r.Some? ==> r.value.Name() == key
    ensures forall f: Flag :: f.Name() == key ==> r == Some(f)
  {
    if key == "watered" then Some(Watered)
    else if key == "weeded" then Some(Weeded)
    else if key == "mulched" then Some(Mulched)
    else if key == "staked" then Some(Staked)
    else if key == "braced" then Some(Braced)
    else if key == "pruned" then Some(Pruned)
    else None
  }

  /** Every flag is a button, and the flag names are exactly the keys the summary accepts. */
  lemma FlagNamesAreTheFlagKeys(f: Flag)
    ensures f in AllFlags
    ensures IsFlagName(f.Name())
    ensures FromName(f.Name()) == Some(f)
    ensures f.Verb() != f.Name() && |f.Name()| > 0 && ',' !in f.Name()
  {
  }

  /** The button list names every flag. */
  lemma AllFlagsComplete()
    ensures forall f: Flag :: f in AllFlags
  {
    forall f: Flag
      ensures f in AllFlags
    {
      FlagNamesAreTheFlagKeys(f);
    }
  }

  /** Distinct flags have distinct keys and distinct off-labels. */
  lemma FlagNamesInjective(f: Flag, g: Flag)
    ensures f.Name() == g.Name() ==> f == g
    ensures f.Verb() == g.Verb() ==> f == g
  {
  }
}

=== FILE: health.dfy ===
/**
 The overall-health slider: a 1..6 scale mapped to a fixed label, and the decision
 of when moving the slider writes the label back to the tree record.
 */
module Health {
  import opened Wrappers

  datatype HealthLabel = Good | Fair | Poor | Stump | Missing | Dead {

    /** The label as stored in the tree record's `health` field. */
    function Name(): string {
      match this
      case Good => "good"
      case Fair => "fair"
      case Poor => "poor"
      case Stump => "stump"
      case Missing => "missing"
      case Dead => "dead"
    }

    /** The slider position that carries this label, as the slider's option list pairs them. */
    function SliderValue(): (n: int)
      ensures 1 <= n <= 6
    {
      match this
      case Dead => 1
      case Missing => 2
      case Stump => 3
      case Poor => 4
      case Fair => 5
      case Good => 6
    }
  }

  /** `convertSliderValuesToHealth`, on the already parsed slider value; `None` is `undefined`. */
  function ConvertSliderValuesToHealth(value: int): (r: Option<HealthLabel>)
    ensures r.Some? <==> 1 <= value <= 6
    ensures r.Some? ==> r.value.SliderValue() == value
  {
    if value == 6 then Some(Good)
    else if value == 5 then Some(Fair)
    else if value == 4 then Some(Poor)
    else if value == 3 then Some(Stump)
    else if value == 2 then Some(Missing)
    else if value == 1 then Some(Dead)
    else None
  }

  /** The label name, or `undefined`. */
  function LabelName(l: Option<HealthLabel>): Option<string> {
    match l
    case Some(h) => Some(h.Name())
    case None => None
  }

  /** Each label's slider position maps back to that label. */
  lemma SliderRoundTrip(l: HealthLabel)
    ensures ConvertSliderValuesToHealth(l.SliderValue()) == Some(l)
  {
  }

  /** Six positions, six distinct labels with six distinct names. */
  lemma LabelsDistinct(a: int, b: int)
    requires 1 <= a <= 6 && 1 <= b <= 6 && a != b
    ensures ConvertSliderValuesToHealth(a) != ConvertSliderValuesToHealth(b)
    ensures LabelName(ConvertSliderValuesToHealth(a)) != LabelName(ConvertSliderValuesToHealth(b))
  {
    var la, lb := ConvertSliderValuesToHealth(a).value, ConvertSliderValuesToHealth(b).value;
    assert la.SliderValue() != lb.SliderValue();
    assert la != lb;
  }

  /** The payload of a health write: the tree id and the derived label, never the raw number. */
  datatype HealthUpdate = HealthUpdate(idTree: string, health: Option<HealthLabel>)

  /** What one slider move does, as written. */
  datatype SliderOutcome =
    | ReferenceError  // the unbound `loginWithRedirect` threw; the handler caught it
    | Unchanged       // the derived label equals the current one: no write
    | Saved(update: HealthUpdate)

  /**
   `changeSlider` as written. An unauthenticated move calls `loginWithRedirect`,
   which is not bound in the slider's scope, so the handler throws before any write.
   Otherwise a write is issued exactly when the newly derived label differs from
   the record's current `health`.
   */
  function ChangeSlider(isAuthenticated: bool, idTree: string, value: int, health: Option<string>): (r: SliderOutcome)
    ensures r.ReferenceError? <==> !isAuthenticated
    ensures r.Saved? <==> isAuthenticated && LabelName(ConvertSliderValuesToHealth(value)) != health
    ensures r.Saved? ==> r.update.idTree == idTree && r.update.health == ConvertSliderValuesToHealth(value)
  {
    if !isAuthenticated then ReferenceError
    else
      var newHealth := ConvertSliderValuesToHealth(value);
      if LabelName(newHealth) != health then Saved(HealthUpdate(idTree, newHealth))
      else Unchanged
  }

  /** What one slider move does once `loginWithRedirect` is in scope. */
  datatype SliderEffect = SliderEffect(loginRequested: bool, write: Option<HealthUpdate>)

  /**
   `changeSlider` with `loginWithRedirect` taken from the auth hook, as the
   maintenance panel's arrow handler does: an unauthenticated move requests the
   login redirect and carries on, and the write decision depends only on the labels.
   */
  function ChangeSliderIntended(isAuthenticated: bool, idTree: string, value: int, health: Option<string>): (r: SliderEffect)
    ensures r.loginRequested <==> !isAuthenticated
    ensures r.write.Some? <==> LabelName(ConvertSliderValuesToHealth(value)) != health
    ensures r.write.Some? ==> r.write.value == HealthUpdate(idTree, ConvertSliderValuesToHealth(value))
  {
    var newHealth := ConvertSliderValuesToHealth(value);
    SliderEffect(!isAuthenticated, if LabelName(newHealth) != health then Some(HealthUpdate(idTree, newHealth)) else None)
  }

  /**
   For a slider position and a record whose `health` is a known label, a write
   happens exactly when the position is not that label's position, and it carries
   the label of the new position.
   */
  lemma SliderWritesIffPositionMoves(idTree: string, value: int, current: HealthLabel)
    requires 1 <= value <= 6
    ensures var r := ChangeSliderIntended(true, idTree, value, Some(current.Name()));
      && (r.write.Some? <==> value != current.SliderValue())
      && (r.write.Some? ==> r.write.value.health.Some? && r.write.value.health.value.SliderValue() == value)
  {
  }

  /** Moving a "stump" tree (position 3) to position 5 writes "fair", not "stump". */
  lemma StumpToFairWritesFair(idTree: string)
    ensures ChangeSlider(true, idTree, 5, Some("stump")) == Saved(HealthUpdate(idTree, Some(Fair)))
    ensures ChangeSliderIntended(true, idTree, 5, Some("stump")).write == Some(HealthUpdate(idTree, Some(Fair)))
  {
  }

  /** As written, a signed-out user's move neither redirects nor writes; once fixed it redirects. */
  lemma SignedOutMoveThrows(idTree: string)
    ensures ChangeSlider(false, idTree, 5, Some("stump")) == ReferenceError
    ensures ChangeSliderIntended(false, idTree, 5, Some("stump")).loginRequested
  {
  }
}

=== FILE: notes.dfy ===
/**
 The tree-notes editor: when the save button appears, what a submit writes, and
 the transient feedback the button shows until the save timer resets it.
 */
module Notes {
  import opened Wrappers

  /** The button styles the notes editor switches between. */
  datatype ButtonStyle = BtnLight | BtnInfo | BtnDanger

  /** `showSave`, the button text and the button style. */
  datatype NotesUi = NotesUi(showSave: bool, buttonText: string, style: ButtonStyle)

  /** The button as mounted, and as `handleNotesSave` restores it. */
  const IdleUi: NotesUi := NotesUi(false, "SAVE", BtnLight)

  /**
   The editor's state: the record's saved `notes` the text is compared with
   (`None` when the record has none) and the save button.
   */
  datatype NotesState = NotesState(saved: Option<string>, ui: NotesUi)

  /**
   The editor as mounted for a record: the record's notes are the baseline, and the
   save button is hidden and idle.
   */
  function Mounted(saved: Option<string>): (r: NotesState)
    ensures r.saved == saved
    ensures !r.ui.showSave && Feedback(r.ui) && r.ui.style == BtnLight
  {
    NotesState(saved, IdleUi)
  }

  /**
   What can happen to the editor: the text changes, the form is submitted with the
   text at that moment, the write settles with or without an error, the save
   timer (800 ms after the write settles) fires, or the tree record is fetched
   again after a successful write invalidated it, bringing its current notes.
   */
  datatype NotesEvent =
    | Change(text: string)
    | Submit(text: string)
    | WriteSucceeded
    | WriteFailed(message: string)
    | Timeout
    | Refetched(notes: Option<string>)

  /** The payload of a notes write. */
  datatype NoteUpdate = NoteUpdate(idTree: string, notes: string)

  datatype NotesStep = NotesStep(state: NotesState, write: Option<NoteUpdate>)

  /** One event of `handleOnChange`, `handleNotesSubmit` or `handleNotesSave`, or a refetch of the record. */
  function Step(idTree: string, s: NotesState, e: NotesEvent): (r: NotesStep)
    ensures r.write.Some? <==> e.Submit? && e.text != ""
    ensures r.write.Some? ==> r.write.value == NoteUpdate(idTree, e.text)
    ensures e.Change? ==> r.state == s.(ui := s.ui.(showSave := s.ui.showSave || Some(e.text) != s.saved))
    ensures e.Submit? && e.text != "" ==> r.state == s.(ui := s.ui.(buttonText := "SAVING", style := BtnInfo))
    ensures e.Submit? && e.text == "" ==> r.state == s
    ensures e.WriteSucceeded? ==> r.state == s
    ensures e.WriteFailed? ==> r.state == s.(ui := s.ui.(buttonText := e.message, style := BtnDanger))
    ensures e.Timeout? ==> r.state == Mounted(s.saved)
    ensures e.Refetched? ==> r.state == s.(saved := e.notes)
  {
    match e
    case Change(text) =>
      NotesStep(if Some(text) != s.saved then s.(ui := s.ui.(showSave := true)) else s, None)
    case Submit(text) =>
      if text != "" then NotesStep(s.(ui := s.ui.(style := BtnInfo, buttonText := "SAVING")), Some(NoteUpdate(idTree, text)))
      else NotesStep(s, None)
    case WriteSucceeded =>
      NotesStep(s, None)
    case WriteFailed(message) =>
      NotesStep(s.(ui := s.ui.(style := BtnDanger, buttonText := message)), None)
    case Timeout =>
      NotesStep(s.(ui := IdleUi), None)
    case Refetched(notes) =>
      NotesStep(s.(saved := notes), None)
  }

  /** The final state and the writes issued, in order, by a sequence of events. */
  datatype NotesRun = NotesRun(state: NotesState, writes: seq<NoteUpdate>)

  /**
   At most one write per event, each for this tree and with a non-empty text; no
   events leave the state as it was.
   */
  function Run(idTree: string, s: NotesState, events: seq<NotesEvent>): (r: NotesRun)
    decreases |events|
    ensures |events| == 0 ==> r == NotesRun(s, [])
    ensures |r.writes| <= |events|
    ensures forall i :: 0 <= i < |r.writes| ==> r.writes[i].idTree == idTree && r.writes[i].notes != ""
  {
    if |events| == 0 then NotesRun(s, [])
    else
      var step := Step(idTree, s, events[0]);
      var rest := Run(idTree, step.state, events[1..]);
      NotesRun(rest.state, (if step.write.Some? then [step.write.value] else []) + rest.writes)
  }

  /** The texts of the non-empty submits, in order. */
  function SubmittedTexts(events: seq<NotesEvent>): seq<string> {
    if |events| == 0 then []
    else (if events[0].Submit? && events[0].text != "" then [events[0].text] else [])
         + SubmittedTexts(events[1..])
  }

  /**
   Every write carries the tree id and the text at the moment of its submit, and
   there is one write per non-empty submit, in order; nothing else writes.
   */
  lemma {:induction false} WritesAreNonEmptySubmits(idTree: string, s: NotesState, events: seq<NotesEvent>)
    decreases |events|
    ensures var w := Run(idTree, s, events).writes;
      && |w| == |SubmittedTexts(events)|
      && forall i :: 0 <= i < |w| ==> w[i] == NoteUpdate(idTree, SubmittedTexts(events)[i])
  {
    if |events| != 0 {
      var step := Step(idTree, s, events[0]);
      WritesAreNonEmptySubmits(idTree, step.state, events[1..]);
    }
  }

  /** The text/style pairs the button can show: idle, saving, or a failure message. */
  predicate Feedback(u: NotesUi) {
    || (u.buttonText == "SAVE" && u.style == BtnLight)
    || (u.buttonText == "SAVING" && u.style == BtnInfo)
    || u.style == BtnDanger
  }

  /** Every state reached from a well-formed one shows one of the three feedbacks. */
  lemma {:induction false} RunKeepsFeedback(idTree: string, s: NotesState, events: seq<NotesEvent>)
    requires Feedback(s.ui)
    decreases |events|
    ensures Feedback(Run(idTree, s, events).state.ui)
  {
    if |events| != 0 {
      var step := Step(idTree, s, events[0]);
      RunKeepsFeedback(idTree, step.state, events[1..]);
    }
  }

  /**
   Whatever happened before, a run that ends with the save timer is back to the
   hidden "SAVE" button; in particular a failure message does not stay.
   */
  lemma {:induction false} TimeoutResets(idTree: string, s: NotesState, events: seq<NotesEvent>)
    requires |events| > 0 && events[|events| - 1] == Timeout
    decreases |events|
    ensures Run(idTree, s, events).state.ui == IdleUi
  {
    if |events| > 1 {
      var step := Step(idTree, s, events[0]);
      assert events[1..][|events[1..]| - 1] == Timeout;
      TimeoutResets(idTree, step.state, events[1..]);
    }
  }

  /** Typing text equal to the saved notes never reveals the save button. */
  lemma {:induction false} SameTextKeepsSaveHidden(idTree: string, text: string, events: seq<NotesEvent>)
    requires forall i :: 0 <= i < |events| ==> events[i] == Change(text)
    decreases |events|
    ensures Run(idTree, Mounted(Some(text)), events).state == Mounted(Some(text))
  {
    if |events| != 0 {
      SameTextKeepsSaveHidden(idTree, text, events[1..]);
    }
  }

  /** A failed save shows the message in the danger style until the timer clears it. */
  lemma FailedSaveThenTimeout(idTree: string, saved: Option<string>, text: string, message: string)
    requires text != ""
    ensures var r := Run(idTree, Mounted(saved), [Change(text), Submit(text), WriteFailed(message)]);
      r.state.ui.buttonText == message && r.state.ui.style == BtnDanger && r.writes == [NoteUpdate(idTree, text)]
    ensures Run(idTree, Mounted(saved), [Change(text), Submit(text), WriteFailed(message), Timeout]).state.ui
         == IdleUi
  {
    var s0 := Mounted(saved);
    var s1 := Step(idTree, s0, Change(text)).state;
    var s2 := Step(idTree, s1, Submit(text)).state;
    var s3 := Step(idTree, s2, WriteFailed(message)).state;
    assert Run(idTree, s3, []) == NotesRun(s3, []);
    assert Run(idTree, s2, [WriteFailed(message)]) == NotesRun(s3, []);
    assert Run(idTree, s1, [Submit(text), WriteFailed(message)]) == NotesRun(s3, [NoteUpdate(idTree, text)]);
    TimeoutResets(idTree, s0, [Change(text), Submit(text), WriteFailed(message), Timeout]);
  }

  /**
   Once a saved text comes back with the refetched record, typing it again after
   the timer does not reveal the save button.
   */
  lemma SavedTextBecomesBaseline(idTree: string, saved: Option<string>, text: string)
    requires text != ""
    ensures Run(idTree, Mounted(saved),
                [Change(text), Submit(text), WriteSucceeded, Refetched(Some(text)), Timeout, Change(text)]).state
         == Mounted(Some(text))
  {
    var es := [Change(text), Submit(text), WriteSucceeded, Refetched(Some(text)), Timeout, Change(text)];
    var s0 := Mounted(saved);
    var s1 := Step(idTree, s0, es[0]).state;
    var s2 := Step(idTree, s1, es[1]).state;
    var s3 := Step(idTree, s2, es[2]).state;
    var s4 := Step(idTree, s3, es[3]).state;
    var s5 := Step(idTree, s4, es[4]).state;
    var s6 := Step(idTree, s5, es[5]).state;
    assert s6 == Mounted(Some(text));
    assert Run(idTree, s6, []).state == s6;
    assert Run(idTree, s5, es[5..]).state == s6;
    assert Run(idTree, s4, es[4..]).state == s6 by { assert es[4..][1..] == es[5..]; }
    assert Run(idTree, s3, es[3..]).state == s6 by { assert es[3..][1..] == es[4..]; }
    assert Run(idTree, s2, es[2..]).state == s6 by { assert es[2..][1..] == es[3..]; }
    assert Run(idTree, s1, es[1..]).state == s6 by { assert es[1..][1..] == es[2..]; }
    assert Run(idTree, s0, es).state == s6;
  }
}

=== FILE: seqs.dfy ===
/**
 Sequence helpers standing in for the JavaScript array methods the tree record
 component uses: `filter`, and `join(', ')` together with the split that undoes it.
 */
module Seqs {

  /** `Array.prototype.filter`: the elements satisfying `p`, in their original order. */
  function Filter<T>(s: seq<T>, p: T -> bool): (r: seq<T>)
    ensures |r| <= |s|
    ensures forall i :: 0 <= i < |r| ==> p(r[i])
  {
    if |s| == 0 then []
    else if p(s[0]) then [s[0]] + Filter(s[1..], p)
    else Filter(s[1..], p)
  }

  /** Position of the first `c` in `s`, or `|s|` when there is none. */
  function IndexOf(s: string, c: char): (i: nat)
    ensures i <= |s|
    ensures i < |s| ==> s[i] == c
    ensures forall j :: 0 <= j < i ==> s[j] != c
  {
    if |s| == 0 then 0
    else if s[0] == c then 0
    else 1 + IndexOf(s[1..], c)
  }

  /** `Array.prototype.join(', ')`. */
  function Join(xs: seq<string>): (r: string)
    ensures |xs| == 0 ==> r == ""
    ensures |xs| > 0 && |xs[0]| > 0 ==> |r| > 0
  {
    if |xs| == 0 then ""
    else if |xs| == 1 then xs[0]
    else xs[0] + ", " + Join(xs[1..])
  }

  /** Splits a `", "`-separated list back into its items; the empty string is the empty list. */
  function Split(s: string): seq<string>
    decreases |s|
  {
    if |s| == 0 then []
    else
      var i := IndexOf(s, ',');
      if i == |s| then [s]
      else [s[..i]] + Split(if i + 2 <= |s| then s[i + 2..] else [])
  }

  /** An item that `Join` can carry without ambiguity: non-empty and free of commas. */
  predicate PlainItem(x: string) {
    |x| > 0 && ',' !in x
  }

  lemma IndexOfAfterPlain(x: string, rest: string)
    requires ',' !in x
    ensures IndexOf(x + ", " + rest, ',') == |x|
  {
    var s := x + ", " + rest;
    assert s[|x|] == ',';
  }

  /** `Split` undoes `Join` for lists of plain items. */
  lemma {:induction false} SplitJoin(xs: seq<string>)
    requires forall i :: 0 <= i < |xs| ==> PlainItem(xs[i])
    ensures Split(Join(xs)) == xs
  {
    if |xs| > 1 {
      var x, rest := xs[0], Join(xs[1..]);
      var s := x + ", " + rest;
      assert Join(xs) == s;
      IndexOfAfterPlain(x, rest);
      assert s[..|x|] == x;
      assert s[|x| + 2..] == rest;
      assert Split(s) == [x] + Split(rest);
      SplitJoin(xs[1..]);
      assert xs == [x] + xs[1..];
    }
  }
}

=== FILE: summary.dfy ===
/**
 The "Maintenance Done" line of a visit in the tree's history: the names of the
 maintenance flags the visit record carries, in the record's own entry order.
 */
module Summary {
  import opened Flags
  import opened Seqs

  /**
   A value in a visit record as the summary sees it: JavaScript `null`, a string,
   or anything else (booleans, numbers, `undefined`).
   */
  datatype Val = Null | Str(s: string) | Other

  /** One `[key, value]` pair of `Object.entries`. */
  type Entry = (string, Val)

  /** Only the string "no" and `null` count as "not done"; `false` and `undefined` do not. */
  predicate IsDone(v: Val) {
    v != Str("no") && v != Null
  }

  predicate DoneEntry(e: Entry) {
    IsDone(e.1)
  }

  predicate FlagEntry(e: Entry) {
    IsFlagName(e.0)
  }

  /** What the summary lists for one entry. */
  predicate Listed(e: Entry) {
    IsFlagName(e.0) && IsDone(e.1)
  }

  function EntryKeys(es: seq<Entry>): (r: seq<string>)
    ensures |r| == |es|
    ensures forall i :: 0 <= i < |es| ==> r[i] == es[i].0
  {
    if |es| == 0 then [] else [es[0].0] + EntryKeys(es[1..])
  }

  /** The names `makeMaintenanceString` joins: the two filters, then the keys. */
  function DoneNames(history: seq<Entry>): (r: seq<string>)
    ensures |r| <= |history|
    ensures forall i :: 0 <= i < |r| ==> IsFlagName(r[i])
  {
    EntryKeys(Filter(Filter(history, DoneEntry), FlagEntry))
  }

  /**
   `makeMaintenanceString`: the listed names joined with ", ", and "" exactly when
   no entry is listed. Read back as a comma-separated list, the summary is exactly
   the flag entries whose values are neither "no" nor `null`, in the record's order.
   */
  function MakeMaintenanceString(history: seq<Entry>): (r: string)
    ensures r == Join(ListedNames(history))
    ensures r == "" <==> ListedNames(history) == []
    ensures Split(r) == ListedNames(history)
  {
    DoneNamesAreListedNames(history);
    ListedNamesArePlain(history);
    SplitJoin(ListedNames(history));
    var names := DoneNames(history);
    if |names| == 0 then "" else Join(names)
  }

  /** The listed names of a record, one entry at a time: the reference the summary is compared to. */
  function ListedNames(history: seq<Entry>): seq<string> {
    if |history| == 0 then []
    else (if Listed(history[0]) then [history[0].0] else []) + ListedNames(history[1..])
  }

  lemma {:induction false} ListedNamesAppend(a: seq<Entry>, b: seq<Entry>)
    ensures ListedNames(a + b) == ListedNames(a) + ListedNames(b)
  {
    if |a| == 0 {
      assert a + b == b;
    } else {
      assert (a + b)[0] == a[0];
      assert (a + b)[1..] == a[1..] + b;
      ListedNamesAppend(a[1..], b);
    }
  }

  lemma EntryKeysAppend(a: seq<Entry>, b: seq<Entry>)
    ensures EntryKeys(a + b) == EntryKeys(a) + EntryKeys(b)
  {
  }

  /** The composed filters, applied to a record with a first entry, take that entry iff it is listed. */
  lemma FiltersCons(history: seq<Entry>)
    requires |history| > 0
    ensures Filter(Filter(history, DoneEntry), FlagEntry)
         == (if Listed(history[0]) then [history[0]] else []) + Filter(Filter(history[1..], DoneEntry), FlagEntry)
  {
    var e, rest := history[0], Filter(history[1..], DoneEntry);
    if DoneEntry(e) {
      assert Filter(history, DoneEntry) == [e] + rest;
      assert ([e] + rest)[1..] == rest;
    }
  }

  /** The composed filters list the same names, in the same order, as the one-entry-at-a-time reference. */
  lemma {:induction false} DoneNamesAreListedNames(history: seq<Entry>)
    ensures DoneNames(history) == ListedNames(history)
  {
    if |history| != 0 {
      DoneNamesAreListedNames(history[1..]);
      FiltersCons(history);
      var e := history[0];
      EntryKeysAppend(if Listed(e) then [e] else [], Filter(Filter(history[1..], DoneEntry), FlagEntry));
    }
  }

  /** Every listed name is a flag name. */
  lemma {:induction false} ListedNamesArePlain(history: seq<Entry>)
    ensures forall i :: 0 <= i < |ListedNames(history)| ==> IsFlagName(ListedNames(history)[i])
    ensures forall i :: 0 <= i < |ListedNames(history)| ==> PlainItem(ListedNames(history)[i])
  {
    if |history| != 0 {
      ListedNamesArePlain(history[1..]);
    }
  }

  /** A name is listed exactly when some entry has that flag key and a done value. */
  lemma {:induction false} ListedNamesMembership(history: seq<Entry>, name: string)
    ensures name in ListedNames(history) <==>
      exists i :: 0 <= i < |history| && history[i].0 == name && Listed(history[i])
  {
    if |history| != 0 {
      ListedNamesMembership(history[1..], name);
      if name in ListedNames(history[1..]) {
        var i :| 0 <= i < |history[1..]| && history[1..][i].0 == name && Listed(history[1..][i]);
        assert history[i + 1] == history[1..][i];
      }
      if exists i :: 0 <= i < |history| && history[i].0 == name && Listed(history[i]) {
        var i :| 0 <= i < |history| && history[i].0 == name && Listed(history[i]);
        if i > 0 {
          assert history[1..][i - 1] == history[i];
        }
      }
    }
  }

  /** Keys that are not flags, such as comment, volunteer or idTree, never appear in the summary. */
  lemma {:induction false} NonFlagKeysNeverListed(history: seq<Entry>, key: string)
    requires !IsFlagName(key)
    ensures key !in Split(MakeMaintenanceString(history))
  {
    ListedNamesMembership(history, key);
  }

  /** The summary of two record parts is the summaries of the parts, in order. */
  lemma {:induction false} SummaryKeepsRecordOrder(a: seq<Entry>, b: seq<Entry>)
    ensures Split(MakeMaintenanceString(a + b)) == Split(MakeMaintenanceString(a)) + Split(MakeMaintenanceString(b))
  {
    ListedNamesAppend(a, b);
  }

  /** Summarising only the listed entries of a record gives the same summary. */
  lemma {:induction false} SummaryOfListedEntries(history: seq<Entry>)
    ensures MakeMaintenanceString(Filter(history, Listed)) == MakeMaintenanceString(history)
  {
    DoneNamesAreListedNames(history);
    DoneNamesAreListedNames(Filter(history, Listed));
    ListedNamesOfFilter(history);
  }

  lemma {:induction false} ListedNamesOfFilter(history: seq<Entry>)
    ensures ListedNames(Filter(history, Listed)) == ListedNames(history)
  {
    if |history| != 0 {
      ListedNamesOfFilter(history[1..]);
      if Listed(history[0]) {
        var f := Filter(history, Listed);
        assert f == [history[0]] + Filter(history[1..], Listed);
        assert f[1..] == Filter(history[1..], Listed);
      }
    }
  }
}

=== FILE: toggles.dfy ===
/**
 The maintenance buttons of a visit entry: the `statusSelected` map from flag key
 to "yes"/"no", and the six button labels that must mirror it.
 */
module Toggles {
  import opened Wrappers
  import opened Flags

  /** `isEmpty`: the object has no own keys. */
  function IsEmpty(obj: map<string, string>): (r: bool)
    ensures r <==> forall k :: k !in obj
  {
    obj == map[]
  }

  /** True when the flag's button shows as active. */
  predicate IsOn(selected: map<string, string>, key: string) {
    key in selected && selected[key] == "yes"
  }

  /**
   `changeYesNo`: the value a click on `key` stores. A missing key, or one set
   to "no", becomes "yes"; any other value becomes "no".
   */
  function ChangeYesNo(key: string, selected: map<string, string>): (r: string)
    ensures r == "yes" || r == "no"
    ensures r == "yes" <==> key !in selected || selected[key] == "no"
    ensures key in selected && selected[key] == "yes" ==> r == "no"
  {
    if IsEmpty(selected) then "yes"
    else if key !in selected then "yes"
    else if selected[key] == "no" then "yes"
    else "no"
  }

  /**
   `changeImageText`: the label the button of `key` shows after a click. It is the
   on-label exactly when the same click stores "yes", and `undefined` for a key
   that is not a flag. The `yes` and `no` tables are `Flag.Name` and `Flag.Verb`.
   */
  function ChangeImageText(key: string, selected: map<string, string>): (r: Option<string>)
    ensures r.Some? <==> IsFlagName(key)
    ensures forall f: Flag :: f.Name() == key ==>
      r == Some(if ChangeYesNo(key, selected) == "yes" then f.Name() else f.Verb())
  {
    match FromName(key)
    case None => None
    case Some(f) =>
      if IsEmpty(selected) then Some(f.Name())
      else if key !in selected then Some(f.Name())
      else if selected[key] == "no" then Some(f.Name())
      else Some(f.Verb())
  }

  /**
   The state behind the buttons. `selected` is the maintenance panel's
   `statusSelected`, which lives as long as the panel component; `labels` are the
   six label states of the buttons component, which exists only while the panel
   is open.
   */
  datatype Buttons = Buttons(selected: map<string, string>, labels: map<Flag, string>)

  /** The buttons mounting over a selection: every label starts at its base verb. */
  function Mount(selected: map<string, string>): (r: Buttons)
    ensures r.selected == selected
    ensures forall f: Flag :: f in r.labels && r.labels[f] == f.Verb()
  {
    AllFlagsComplete();
    Buttons(selected, map f: Flag | f in AllFlags :: f.Verb())
  }

  /** The panel as first opened: nothing selected. */
  const InitialButtons: Buttons := Mount(map[])

  /**
   The arrow closing and opening the panel again: the buttons remount with base
   verbs, while the selection survives.
   */
  function Reopen(b: Buttons): (r: Buttons)
    ensures r.selected == b.selected
    ensures forall f: Flag :: f in r.labels && r.labels[f] == f.Verb()
  {
    Mount(b.selected)
  }

  /** The label a flag's button must show for a given selection. */
  function LabelFor(f: Flag, selected: map<string, string>): string {
    if IsOn(selected, f.Name()) then f.Name() else f.Verb()
  }

  /** The selections the buttons produce: only flag keys, each "yes" or "no". */
  ghost predicate FlagSelection(selected: map<string, string>) {
    forall k :: k in selected ==> IsFlagName(k) && (selected[k] == "yes" || selected[k] == "no")
  }

  /** The label of `f` shows the on-label exactly when its button is active. */
  ghost predicate InStep(b: Buttons, f: Flag) {
    f in b.labels && b.labels[f] == LabelFor(f, b.selected)
  }

  /** A flag selection with every label in step. */
  ghost predicate Consistent(b: Buttons) {
    FlagSelection(b.selected) && forall f: Flag :: InStep(b, f)
  }

  /**
   The state update of `onCheckboxBtnClick` for the button named `name`: the
   clicked key is set by `changeYesNo`, the clicked flag's label by
   `changeImageText`, and nothing else changes.
   */
  function OnCheckboxBtnClick(b: Buttons, name: string): (r: Buttons)
    ensures r.selected.Keys == b.selected.Keys + {name}
    ensures r.selected[name] == ChangeYesNo(name, b.selected)
    ensures forall k :: k in b.selected && k != name ==> r.selected[k] == b.selected[k]
    ensures forall f :: f in b.labels && f.Name() != name ==> f in r.labels && r.labels[f] == b.labels[f]
    ensures forall f: Flag :: f.Name() == name ==> f in r.labels && Some(r.labels[f]) == ChangeImageText(name, b.selected)
    ensures !IsFlagName(name) ==> r.labels == b.labels
  {
    var newImageText := ChangeImageText(name, b.selected);
    var selectedValue := ChangeYesNo(name, b.selected);
    Buttons(b.selected[name := selectedValue], SetLabel(b.labels, name, newImageText))
  }

  /** The `setWater` ... `setPrune` dispatch: only the named flag's label takes the new text. */
  function SetLabel(labels: map<Flag, string>, name: string, text: Option<string>): (r: map<Flag, string>)
    requires IsFlagName(name) ==> text.Some?
    ensures forall f :: f in labels && f.Name() != name ==> f in r && r[f] == labels[f]
    ensures forall f: Flag :: f.Name() == name ==> f in r && Some(r[f]) == text
    ensures !IsFlagName(name) ==> r == labels
  {
    match FromName(name)
    case Some(f) => labels[f := text.value]
    case None => labels
  }

  /**
   An active button is one a click turns off, and a key never clicked is inactive;
   for a key holding "yes" or "no", the button is active exactly when a click on it
   would store "no".
   */
  lemma ActiveIffClickTurnsOff(selected: map<string, string>, key: string)
    ensures IsOn(selected, key) ==> ChangeYesNo(key, selected) == "no"
    ensures key !in selected ==> !IsOn(selected, key)
    ensures key in selected && (selected[key] == "yes" || selected[key] == "no") ==>
      (IsOn(selected, key) <==> ChangeYesNo(key, selected) == "no")
  {
  }

  /**
   Freshly mounted buttons are in step exactly for the flags that are not on: a
   flag left "yes" when the panel was closed shows its base verb on an active button.
   */
  lemma MountInStepIffNotOn(selected: map<string, string>)
    ensures forall f: Flag :: InStep(Mount(selected), f) <==> !IsOn(selected, f.Name())
    ensures FlagSelection(selected) && (forall f: Flag :: !IsOn(selected, f.Name())) ==> Consistent(Mount(selected))
  {
    forall f: Flag
      ensures InStep(Mount(selected), f) <==> !IsOn(selected, f.Name())
    {
      FlagNamesAreTheFlagKeys(f);
    }
  }

  /**
   A click puts the clicked flag's label in step and leaves every other flag as
   in or out of step as it was; a flag click keeps a flag selection one.
   */
  lemma ClickKeepsLabelsInStep(b: Buttons, name: string)
    ensures var r := OnCheckboxBtnClick(b, name);
      && (forall f: Flag :: f.Name() == name ==> InStep(r, f))
      && (forall f: Flag :: f.Name() != name ==> (InStep(r, f) <==> InStep(b, f)))
      && (FlagSelection(b.selected) && IsFlagName(name) ==> FlagSelection(r.selected))
    ensures Consistent(b) && IsFlagName(name) ==> Consistent(OnCheckboxBtnClick(b, name))
  {
    var r := OnCheckboxBtnClick(b, name);
    forall g: Flag
      ensures g.Name() == name ==> InStep(r, g)
      ensures g.Name() != name ==> (InStep(r, g) <==> InStep(b, g))
    {
      if g.Name() == name {
        assert Some(r.labels[g]) == ChangeImageText(name, b.selected);
      } else {
        assert IsOn(r.selected, g.Name()) == IsOn(b.selected, g.Name());
      }
    }
  }

  /**
   Two clicks on the same button: a key that was "yes" or "no" gets its value
   back, an unset key ends at "no", and the clicked flag's label ends in step. So
   two clicks restore a consistent state, but turn a drifted label into the
   on-label.
   */
  lemma ClickTwiceRestores(b: Buttons, name: string)
    ensures var r := OnCheckboxBtnClick(OnCheckboxBtnClick(b, name), name);
      && r.selected == b.selected[name := if name in b.selected && b.selected[name] != "no" then "yes" else "no"]
      && (forall f: Flag :: f.Name() != name && f in b.labels ==> f in r.labels && r.labels[f] == b.labels[f])
      && (forall f: Flag :: f.Name() == name ==> InStep(r, f))
    ensures Consistent(b) && name in b.selected ==> OnCheckboxBtnClick(OnCheckboxBtnClick(b, name), name) == b
  {
    ClickKeepsLabelsInStep(OnCheckboxBtnClick(b, name), name);
    if Consistent(b) && name in b.selected {
      ClickTwiceRestoresConsistent(b, name);
    }
  }

  /** From a consistent state with the key set, two clicks give back exactly the state before. */
  lemma ClickTwiceRestoresConsistent(b: Buttons, name: string)
    requires Consistent(b) && name in b.selected
    ensures OnCheckboxBtnClick(OnCheckboxBtnClick(b, name), name) == b
  {
    var r2 := OnCheckboxBtnClick(OnCheckboxBtnClick(b, name), name);
    ClickTwiceKeepsSelection(b, name);
    ClickTwiceKeepsLabels(b, name);
    assert r2 == Buttons(r2.selected, r2.labels);
  }

  /** Two clicks on a key holding "yes" or "no" give the selection back. */
  lemma ClickTwiceKeepsSelection(b: Buttons, name: string)
    requires name in b.selected && (b.selected[name] == "yes" || b.selected[name] == "no")
    ensures OnCheckboxBtnClick(OnCheckboxBtnClick(b, name), name).selected == b.selected
  {
    var r2 := OnCheckboxBtnClick(OnCheckboxBtnClick(b, name), name);
    assert r2.selected.Keys == b.selected.Keys;
  }

  /** From a consistent state, two clicks on a set key give every label back. */
  lemma ClickTwiceKeepsLabels(b: Buttons, name: string)
    requires Consistent(b) && name in b.selected
    ensures OnCheckboxBtnClick(OnCheckboxBtnClick(b, name), name).labels == b.labels
  {
    var r1 := OnCheckboxBtnClick(b, name);
    var r2 := OnCheckboxBtnClick(r1, name);
    ClickTwiceKeepsSelection(b, name);
    ClickKeepsLabelsInStep(r1, name);
    var f := FromName(name).value;
    forall g: Flag
      ensures g in r2.labels && g in b.labels && r2.labels[g] == b.labels[g]
    {
      if g == f {
        assert InStep(r2, f) && InStep(b, f);
      } else {
        FlagNamesInjective(f, g);
        assert InStep(b, g);
      }
    }
    assert r2.labels.Keys == b.labels.Keys;
  }

  /** From an unset flag, two clicks store "yes" and then "no". */
  lemma ClickTwiceFromUnset(b: Buttons, name: string)
    requires name !in b.selected
    ensures OnCheckboxBtnClick(b, name).selected[name] == "yes"
    ensures OnCheckboxBtnClick(OnCheckboxBtnClick(b, name), name).selected[name] == "no"
  {
  }

  /**
   As written, the labels drift: click "watered", close and reopen the panel, and
   the active watered button reads "water"; clicking it twice then ends at
   "watered", not at the "water" it showed.
   */
  lemma {:induction false} ReopenDrifts()
    ensures var b := Reopen(OnCheckboxBtnClick(InitialButtons, "watered"));
      && IsOn(b.selected, "watered")
      && b.labels[Watered] == "water"
      && !Consistent(b)
      && OnCheckboxBtnClick(OnCheckboxBtnClick(b, "watered"), "watered").labels[Watered] == "watered"
  {
    var b := Reopen(OnCheckboxBtnClick(InitialButtons, "watered"));
    assert b.selected["watered"] == "yes";
    assert !InStep(b, Watered);
    ClickTwiceRestores(b, "watered");
    var r := OnCheckboxBtnClick(OnCheckboxBtnClick(b, "watered"), "watered");
    assert r.selected["watered"] == "yes";
    assert InStep(r, Watered);
  }

  /**
   The labels derived from the selection instead of kept as separate state: each
   button reads its on-label exactly when it is active, whatever clicks and
   reopenings led to the selection.
   */
  function ButtonLabels(selected: map<string, string>): (r: map<Flag, string>)
    ensures forall f: Flag :: f in r && (r[f] == f.Name() <==> IsOn(selected, f.Name()))
    ensures forall f: Flag :: f in r && (r[f] == f.Name() || r[f] == f.Verb())
  {
    AllFlagsComplete();
    var r := map f: Flag | f in AllFlags :: LabelFor(f, selected);
    assert forall f: Flag :: f.Name() != f.Verb() by {
      forall f: Flag
        ensures f.Name() != f.Verb()
      {
        FlagNamesAreTheFlagKeys(f);
      }
    }
    r
  }

  /**
   The derived labels agree with what a click shows on the clicked button, and
   reopening the panel does not change them.
   */
  lemma DerivedLabelsFollowClicks(b: Buttons, name: string)
    ensures var r := OnCheckboxBtnClick(b, name);
      forall f: Flag :: f.Name() == name ==> ButtonLabels(r.selected)[f] == r.labels[f]
    ensures ButtonLabels(Reopen(b).selected) == ButtonLabels(b.selected)
  {
    ClickKeepsLabelsInStep(b, name);
    var r := OnCheckboxBtnClick(b, name);
    forall f: Flag | f.Name() == name
      ensures ButtonLabels(r.selected)[f] == r.labels[f]
    {
      assert InStep(r, f);
    }
  }
}

=== FILE: visit.dfy ===
/**
 Submitting a maintenance visit: the payload sent to the tree-history resource,
 and the key-presence test that decides whether it is sent at all.
 */
module Visit {
  import opened Wrappers
  import opened Flags
  import Toggles

  /** The keys whose presence makes a payload worth sending, in the order the test tries them. */
  const MaintenanceArray: seq<string> :=
    ["watered", "weeded", "mulched", "staked", "braced", "pruned", "comment"]

  predicate IsMaintenanceKey(key: string) {
    IsFlagName(key) || key == "comment"
  }

  /** `Array.prototype.some` over the keys, testing own-key presence in `obj`. */
  function SomeKeyPresent<V>(keys: seq<string>, obj: map<string, V>): (r: bool)
    ensures r <==> exists i :: 0 <= i < |keys| && keys[i] in obj
  {
    if |keys| == 0 then false
    else keys[0] in obj || SomeKeyPresent(keys[1..], obj)
  }

  /**
   `hasMaintenanceFields`: some flag key or `comment` is present as a key, whatever
   its value.
   */
  function HasMaintenanceFields<V>(obj: map<string, V>): (r: bool)
    ensures r <==> exists k :: k in obj && IsMaintenanceKey(k)
  {
    var r := SomeKeyPresent(MaintenanceArray, obj);
    if r then
      var i :| 0 <= i < |MaintenanceArray| && MaintenanceArray[i] in obj;
      assert IsMaintenanceKey(MaintenanceArray[i]);
      r
    else
      assert forall k :: IsMaintenanceKey(k) ==> k in MaintenanceArray;
      r
  }

  /**
   The `sendData` object built at submit time: the tree id and visit time, then the
   selected flags spread over them, then the comment and the volunteer name when
   their fields are non-empty.
   */
  function VisitPayload(idTree: string, dateVisit: string, statusSelected: map<string, string>,
                        comment: string, volunteer: string): (p: map<string, string>)
    ensures p.Keys == {"idTree", "date_visit"} + statusSelected.Keys
                      + (if comment != "" then {"comment"} else {})
                      + (if volunteer != "" then {"volunteer"} else {})
    ensures forall k :: k in statusSelected && k != "comment" && k != "volunteer" ==> p[k] == statusSelected[k]
    ensures comment != "" ==> p["comment"] == comment
    ensures volunteer != "" ==> p["volunteer"] == volunteer
    ensures "idTree" !in statusSelected ==> p["idTree"] == idTree
    ensures "date_visit" !in statusSelected ==> p["date_visit"] == dateVisit
  {
    var sendData := map["idTree" := idTree, "date_visit" := dateVisit] + statusSelected;
    var withComment := if comment != "" then sendData["comment" := comment] else sendData;
    if volunteer != "" then withComment["volunteer" := volunteer] else withComment
  }

  /** `handleSubmit`'s send decision: the payload, when it is sent. */
  function HandleSubmit(idTree: string, dateVisit: string, statusSelected: map<string, string>,
                        comment: string, volunteer: string): (r: Option<map<string, string>>)
    ensures r.Some? <==> comment != "" || exists k :: k in statusSelected && IsMaintenanceKey(k)
    ensures r.Some? ==> "idTree" in r.value && "date_visit" in r.value
    ensures r.Some? ==> r.value == VisitPayload(idTree, dateVisit, statusSelected, comment, volunteer)
  {
    var sendData := VisitPayload(idTree, dateVisit, statusSelected, comment, volunteer);
    if HasMaintenanceFields(sendData) then Some(sendData) else None
  }

  /** With nothing selected and no comment, no volunteer name makes the form send. */
  lemma VolunteerAloneNeverSends(idTree: string, dateVisit: string, volunteer: string)
    ensures HandleSubmit(idTree, dateVisit, map[], "", volunteer).None?
  {
  }

  /**
   For a selection holding only flag keys, as every selection the buttons produce
   does, the visit is sent exactly when some flag has been clicked or a comment
   was typed.
   */
  lemma SendsIffClickedOrCommented(idTree: string, dateVisit: string, selected: map<string, string>,
                                   comment: string, volunteer: string)
    requires forall k :: k in selected ==> IsFlagName(k)
    ensures HandleSubmit(idTree, dateVisit, selected, comment, volunteer).Some?
        <==> |selected| > 0 || comment != ""
  {
    if |selected| > 0 {
      var k :| k in selected;
      assert IsMaintenanceKey(k);
    }
  }

  /**
   Presence, not truthiness: a flag clicked on and off again stores "no", and the
   visit is still sent with that "no" and no comment.
   */
  lemma UnclickedFlagStillSends(idTree: string, dateVisit: string, volunteer: string)
    ensures var once := Toggles.OnCheckboxBtnClick(Toggles.InitialButtons, "watered");
      var twice := Toggles.OnCheckboxBtnClick(once, "watered");
      && twice.selected == map["watered" := "no"]
      && HandleSubmit(idTree, dateVisit, twice.selected, "", volunteer).Some?
      && HandleSubmit(idTree, dateVisit, twice.selected, "", volunteer).value["watered"] == "no"
  {
    var once := Toggles.OnCheckboxBtnClick(Toggles.InitialButtons, "watered");
    var twice := Toggles.OnCheckboxBtnClick(once, "watered");
    assert twice.selected.Keys == {"watered"};
    assert twice.selected == map["watered" := "no"];
    assert IsMaintenanceKey("watered");
  }

  /** A form with one flag on and no comment sends that flag as "yes" and no comment key. */
  lemma WateredOnlySends(idTree: string, dateVisit: string)
    ensures var p := HandleSubmit(idTree, dateVisit, map["watered" := "yes"], "", "");
      && p.Some?
      && p.value == map["idTree" := idTree, "date_visit" := dateVisit, "watered" := "yes"]
  {
    var p := VisitPayload(idTree, dateVisit, map["watered" := "yes"], "", "");
    assert IsMaintenanceKey("watered");
    assert p.Keys == {"idTree", "date_visit", "watered"};
  }
}

=== FILE: wrappers.dfy ===
/** The optional value used wherever the JavaScript component yields `undefined`. */
module Wrappers {

  datatype Option<+T> = None | Some(value: T)
}
